=== FILE: README.md ===
# Medical-record advice backend: the inference orchestration, modelled in Dafny

The system takes an uploaded scan of a medical record and runs OCR on it. It sends the extracted
text to an "inferrer", which answers with structured advice: a summary, an analysis,
recommendations and lifestyle advice. The inferrer has two backends. The local one is an
in-process model, mocked in the repository. The server one is an HTTP endpoint. Which backend
is used depends on the inferrer's mutable `mode`.

This project models three parts of that system:

- the inferrer (`LlmInferrer`, llm_inferrer.dfy): the prompt template, dispatch on `mode`, the
  mapping of the server's optional fields into one result shape, and the fallback policy. A
  local failure switches `mode` to `"server"` for good. A server failure returns the canned
  fallback result and leaves `mode` alone. It is a class with the fields of the Python object,
  plus pure specification functions (`Dispatch`, `ServerResult`, `Session`) with lemmas about
  them.
- the Flask handlers (`App`, app.dfy): the extension whitelist, the upload guards and their
  order, the upload response, and the inference-mode endpoint. The endpoint's rewrite of the
  `.env` lines is a pure function plus the `for` loop as a method.
- the OCR post-processing (`OcrProcessor`, ocr_processor.dfy): `os.path.splitext` and the
  extension dispatch, the nested loops that flatten the engine's result into newline-joined
  text (a method proved against a recursive function), and the 128 threshold map.

text.dfy gives what the code needs from Python's strings. `startswith` and `join` are modelled
directly. `LastIndexOf` finds the last occurrence of a character, which is the position
`rsplit('.', 1)` splits at. It also serves the model of `os.path.splitext`. `LowerAscii` models
`lower`. `Split` is not called by the code; it exists to state that the newline join can be
undone. wrappers.dfy holds `Option` and `Result`.

The two backends, the OCR engine, the clock and the file system are inputs to the model. The
local backend is a predicate over the prompt: does inference succeed? Model loading is a
boolean given to the constructor. The server is a function from the request that would be
POSTed (URL, prompt, `max_length` 2048, `temperature` 0.7) to a reply, which is one of: a
status plus a parsed body, a body that is not a JSON object, an unparseable body, a transport
error, or a timeout. The mocked local model cannot fail. Its failure branches are reachable
only through these oracles. The OCR engine's result is an input, as the nested
lines/items/entries structure it returns. The name `secure_filename` produces, the upload
timestamp, the upload folder and the lines of `.env` are inputs too.

A ghost field `attempts` on the inferrer records every backend invocation in order. This is
how "exactly one server attempt after a local failure" is stated.

Three behaviours of the code that a reader might not expect, which the model keeps:

- The server result counts as genuine only for status exactly 200, not for any 2xx status.
- A genuine server result has no recommendations when the body omits them
  (`ServerResultMayHaveNoRecommendations`). So "every result has a non-empty recommendation
  list" holds only for the local and fallback paths.
- An accepted POST to the mode endpoint sets the mode before the `.env` file is read. If that
  read fails, the request ends in a 500 and the mode stays changed.

## Model

| member | source | states |
|---|---|---|
| LlmInferrer.Inferrer.constructor | backend/models/llm_inferrer.py:8-24 | the defaults are "local", "./models/" and the localhost URL; the mode is stored unvalidated; in "local" mode model loading runs, and its failure turns the mode into "server" with the model unloaded |
| LlmInferrer.Inferrer.InitLocalModel | backend/models/llm_inferrer.py:26-40 | success loads the model and keeps the mode; failure sets the mode to "server" |
| LlmInferrer.Inferrer.GetSuggestions | backend/models/llm_inferrer.py:42-59 | the result, the new mode and the backends called are those of `Dispatch` on the mode at call time and the built prompt |
| LlmInferrer.Inferrer.InferLocal | backend/models/llm_inferrer.py:87-119 | success gives the three-recommendation local result and keeps the mode; failure sets the mode to "server" and makes exactly one server call, whose result is returned |
| LlmInferrer.Inferrer.InferServer | backend/models/llm_inferrer.py:121-168 | exactly one request, for the object's URL and the prompt; the result is `ServerResult` of the reply; the mode is not touched |
| LlmInferrer.Dispatch | backend/models/llm_inferrer.py:56-59 | local is tried iff the mode is exactly "local"; any other string goes to the server with the mode unchanged; a local failure leads to [local, server] and mode "server"; the result mode is always local, server or fallback, and "fallback" means the canned result |
| LlmInferrer.BuildPrompt | backend/models/llm_inferrer.py:61-85 | the prompt starts with the fixed header and holds the text verbatim right after it, for every text including "" |
| LlmInferrer.PromptRoundTrip | backend/models/llm_inferrer.py:71-85 | the text can be read back out of the prompt |
| LlmInferrer.PromptInjective | backend/models/llm_inferrer.py:71-85 | different texts give different prompts |
| LlmInferrer.PromptSectionsInOrder | backend/models/llm_inferrer.py:77-83 | after the text come the four numbered section requests in order, one per line, then the disclaimer line, which ends the prompt |
| LlmInferrer.LocalResult | backend/models/llm_inferrer.py:104-114 | the mock answer is tagged "local" and has exactly three recommendations |
| LlmInferrer.Fallback | backend/models/llm_inferrer.py:170-183 | the fallback is tagged "fallback" and has exactly the one recommendation to consult a doctor |
| LlmInferrer.RequestFor | backend/models/llm_inferrer.py:135-147 | the request carries the configured URL, the prompt and max_length 2048 |
| LlmInferrer.Normalize | backend/models/llm_inferrer.py:153-159 | each text field is the body's value or "", recommendations the body's list or [], mode "server" |
| LlmInferrer.NormalizeRoundTrip | backend/models/llm_inferrer.py:153-159 | normalising the raw shape of a server result gives it back |
| LlmInferrer.NormalizeIdempotent | backend/models/llm_inferrer.py:153-159 | normalising twice through the raw shape equals normalising once |
| LlmInferrer.ServerResult | backend/models/llm_inferrer.py:150-168 | a genuine server result iff status 200 and the body parses to an object; then it is the normalised body; otherwise (other status, parse failure, transport error, timeout) the fallback |
| LlmInferrer.ServerResultMayHaveNoRecommendations | backend/models/llm_inferrer.py:150-159 | every 200 reply whose object body has no `recommendations` gives a genuine server result with an empty list |
| LlmInferrer.SessionStep | backend/models/llm_inferrer.py:56-59 | each call of a sequence is dispatched on the mode left by the call before it |
| LlmInferrer.ServerModeIsAbsorbing | backend/models/llm_inferrer.py:58-59 | from any mode other than "local", every later call goes only to the server and keeps the mode |
| LlmInferrer.ServerSwitchIsPermanent | backend/models/llm_inferrer.py:115-119 | once a call leaves mode "server", every later call stays in "server" and calls only the server |
| LlmInferrer.LocalAlwaysFailing | backend/models/llm_inferrer.py:115-119 | with a local backend that always fails, the first call tries local then server, and all calls leave and see mode "server" |
| LlmInferrer.SessionModesValid | backend/models/llm_inferrer.py:53-59 | starting in a valid mode, the mode stays in {local, server} and every result is local, server or fallback |
| LlmInferrer.SmokeTest | backend/test_system.py:43-53 | a "local" inferrer with the mock answers the local result; a "server" one answers what the reply maps to |
| App.AllowedFile | backend/app.py:39-41 | an accepted name has a dot, and the text after its last dot is 3 or 4 characters long |
| App.AllowedFileIff | backend/app.py:37-41 | a name passes iff some dot is followed by a dot-free text whose lower case is png, jpg, jpeg, gif or pdf |
| App.AllowedWithExtension | backend/app.py:37-41 | any stem plus a dot and a whitelisted extension in any case passes, ".pdf" included |
| App.UploadGuard | backend/app.py:52-95 | 400 in order: "no file part" for a missing part, "no file selected" for an empty name, and "unsupported file type" for a missing or not whitelisted name; passes iff the name is present, non-empty and allowed |
| App.Upload | backend/app.py:62-95 | 400 exactly when the guard rejects, with no inference; 500 exactly when extraction fails, with its message and no inference; otherwise 200 with the text, the dispatched suggestions and the fixed disclaimer |
| App.UploadFile | backend/app.py:48-95 | response, inferrer mode and backend calls are those of `Upload` on the mode at call time |
| App.PathJoin | backend/app.py:68 | `os.path.join` on POSIX: an absolute name replaces the folder, an empty folder gives the name, otherwise the folder, a '/' unless the folder already ends in one, then the name |
| App.StoredPath | backend/app.py:66-68 | the saved path ends with `<timestamp>_<secured name>` and starts with the upload folder |
| App.StoredPathExtension | backend/app.py:64-68 | the saved path's extension is the secured name's, since the digit timestamp has no dot |
| App.StampedName | backend/app.py:66-67 | the timestamped name has no slash, does not start with a dot, and its last dot is the secured name's |
| App.PdfUploadAlwaysFails | backend/app.py:88-89 | an allowed upload whose secured name ends in ".pdf" in any case always gets the 500 "PDF not supported" answer, and the inferrer is never called |
| App.RewriteEnv | backend/app.py:110-115 | same number and order of lines; each line starting with `INFERENCE_MODE=` becomes `INFERENCE_MODE=<mode>\n`; the others are unchanged; mode lines stay mode lines |
| App.RewriteWithoutModeLine | backend/app.py:111-115 | the lines read are written back unchanged: no line is added |
| App.RewriteOverrides | backend/app.py:111-115 | rewriting with one mode and then another equals rewriting with the second |
| App.RewriteIdempotent | backend/app.py:111-115 | rewriting twice with the same mode equals rewriting once |
| App.WriteEnv | backend/app.py:111-115 | the loop writes exactly the lines of `RewriteEnv` |
| App.ModeEndpoint | backend/app.py:98-118 | GET answers the current mode; POST "local"/"server" sets and echoes it and rewrites the file (500 if it cannot be read, mode already set); any other `mode` in a JSON object body is a 400 with mode and file unchanged |
| App.SetThenGet | backend/app.py:100-106 | a GET after an accepted POST answers the posted mode |
| App.InferenceModeEndpoint | backend/app.py:98-118 | response, inferrer mode and `.env` lines are those of `ModeEndpoint` |
| OcrProcessor.Extension | backend/models/ocr_processor.py:32 | the extension is empty or a dot followed by neither dots nor slashes |
| OcrProcessor.ExtensionIsSuffix | backend/models/ocr_processor.py:32 | root + extension is the path: the extension is a suffix of it, and a non-empty one starts at the last dot |
| OcrProcessor.LeadingDotsOnly | backend/models/ocr_processor.py:32 | a last component of leading dots and a dot-free rest (".png", "d/..png") has no extension |
| OcrProcessor.LeadingDotsThenName | backend/models/ocr_processor.py:32 | leading dots before a name that does not start with a dot stay in the root (".a.png" has ".png") |
| OcrProcessor.ExtensionOfBase | backend/models/ocr_processor.py:32 | a directory prefix does not change a file name's extension |
| OcrProcessor.ExtensionOfName | backend/models/ocr_processor.py:32 | a name not starting with a dot has as extension everything from its last dot |
| OcrProcessor.ExtractedText | backend/models/ocr_processor.py:30-47 | image text iff the lower-cased extension is .png/.jpg/.jpeg/.gif; .pdf in any case gives NotImplementedError; anything else gives ValueError with the extension; errors reach the caller |
| OcrProcessor.ExtractText | backend/models/ocr_processor.py:20-47 | the method returns `ExtractedText` |
| OcrProcessor.PdfAlwaysFails | backend/models/ocr_processor.py:37-41 | a .pdf path fails whatever the engine would give |
| OcrProcessor.Message | backend/models/ocr_processor.py:41-47 | an engine error's text passes through unchanged; the unsupported-type text ends with the extension |
| OcrProcessor.MessageInjective | backend/models/ocr_processor.py:41-43 | the errors extraction raises itself have distinct texts, so the 500 body names which one occurred |
| OcrProcessor.ItemTexts | backend/models/ocr_processor.py:69-73 | an item contributes at most one text, and can fail only with the IndexError |
| OcrProcessor.LineTexts | backend/models/ocr_processor.py:68-73 | a line contributes at most one text per item, and can fail only with the IndexError |
| OcrProcessor.OptLineTexts | backend/models/ocr_processor.py:64-67 | a None line contributes nothing |
| OcrProcessor.AllTexts | backend/models/ocr_processor.py:63-73 | collection over all lines can fail only with the IndexError |
| OcrProcessor.ImageText | backend/models/ocr_processor.py:49-76 | an engine failure is passed on; otherwise the only failure is the IndexError; no texts give "" |
| OcrProcessor.Concat | backend/models/ocr_processor.py:63-73 | collecting one part then another keeps the first error, else the texts in order |
| OcrProcessor.LineTextsAppend | backend/models/ocr_processor.py:69-73 | the texts of a line split in two are those of each part, in item order |
| OcrProcessor.AllTextsAppend | backend/models/ocr_processor.py:64-73 | the texts of a result split in two are those of each part, in line order |
| OcrProcessor.NoneLineContributesNothing | backend/models/ocr_processor.py:64-67 | a None line anywhere adds nothing |
| OcrProcessor.ShortItemSkipped | backend/models/ocr_processor.py:69-70 | an item with fewer than two entries anywhere adds nothing |
| OcrProcessor.ItemTextTaken | backend/models/ocr_processor.py:70-73 | an item with two or more entries adds `item[1][0]` in its place |
| OcrProcessor.ImageTextLayout | backend/models/ocr_processor.py:76 | the output is the texts joined by newlines: "" for none, and for n newline-free texts exactly n-1 newlines, splitting back into the texts |
| OcrProcessor.ExtractFromImage | backend/models/ocr_processor.py:49-76 | the nested loops return `ImageText`: the engine's error, the IndexError of an empty `item[1]`, or the joined texts |
| OcrProcessor.Binarize | backend/models/ocr_processor.py:98-99 | same shape; every value is 0 or 255, and 255 exactly where the input is above 128 |
| OcrProcessor.BinarizeIdempotent | backend/models/ocr_processor.py:98-99 | thresholding twice equals thresholding once |
| Text.LastIndexOf | backend/app.py:41 | `rfind`: -1 iff the character is absent, else an index holding it with none after it |
| Text.SplitJoin | backend/models/ocr_processor.py:76 | splitting a newline-join of newline-free texts gives the texts back |
| Text.JoinSeparatorCount | backend/models/ocr_processor.py:76 | joining n separator-free texts writes exactly n-1 separators |

## Left out

- The network call (`requests.post`, the 30-second timeout, `response.json()`) is the server oracle. The model does not capture cancellation or the timeout's duration.
- The temperature 0.7 is carried as the real number 0.7, not as a binary float.
- A body field of the wrong JSON type (a number for `summary`, say) is not modelled: the body's fields are strings and a list of strings, or absent.
- The PaddleOCR construction and the `self.ocr.ocr` call are the `EngineOutput` input. An entry is a list of strings, so the confidence number is not modelled, and neither is an `item[1][0]` that is not a string.
- `Image.open`/`convert` and numpy: only the threshold map on an integer grid is modelled. `_preprocess_image` is not called anywhere in the repository.
- `str.lower()` is modelled on ASCII letters only. No other character lower-cases into one of the whitelisted extensions, so the whitelist and dispatch decisions are the same. The extension echoed in the ValueError message may differ for non-ASCII names.
- `secure_filename` and `datetime.now()` are inputs: the secured name and a digit timestamp. The secured name is a free input of `Upload`. The model does not link it to the uploaded filename, so `PdfUploadAlwaysFails` and `StoredPathExtension` speak about the secured name. That name can differ from the uploaded one: a stem made only of non-ASCII characters is dropped together with its dot ("病历.png" becomes "png"), while "病历a.png" becomes "a.png".
- `file.save`, `os.makedirs`, `render_template`, `send_from_directory`, Flask routing, `jsonify` and CORS. Response bodies are datatypes, and the result's `timestamp` field is omitted.
- A POST to the mode endpoint whose body is not a JSON object is not modelled. That covers a body that is not JSON, where `get_json()` fails or gives `None`. It also covers a JSON string, list or number, where `data.get('mode')` raises and the answer is a 500. A `mode` value that is not a string behaves like an unknown string.
- A failure while writing `.env` is not modelled; only a failed read is.
- The file's content is the concatenation of the lines `WriteEnv` returns.
- `env` holds the lines as text-mode `readlines()` returns them, with "\r\n" and a lone "\r" already turned into "\n". The model does not capture that translation, so a file with CRLF endings comes back with LF endings even when no line changes.
- Path handling (`os.path.splitext`, `os.path.join`) follows POSIX. On Windows `ntpath` also treats `\` and drive letters as separators. The stored path is not affected, because a secured name contains neither.
- An entry of a recognised item is modelled as a list. PaddleOCR gives the (text, confidence) pair as a tuple, so its IndexError text for an empty pair reads "tuple index out of range", not "list index out of range". The model gives the list wording.
- Logging (`print`) is left out, and so is the `__main__` demo.
- Concurrent requests mutating `inferrer.mode` without a lock are left out; the model is sequential.
- The browser script (backend/static/scripts.js) is UI code and is not part of this model.

=== FILE: app.dfy ===
/**
 * The HTTP layer around the inferrer: the file-type whitelist, the upload handler's guards and
 * responses, and the inference-mode endpoint with its rewrite of the `.env` lines.
 * Flask, file storage and `secure_filename` are not modelled: the request's file part, the name
 * `secure_filename` produces, the timestamp, the OCR engine's result and the `.env` lines are inputs.
 */
module App {
  import opened Wrappers
  import opened Text
  import L = LlmInferrer
  import O = OcrProcessor

  // ---------------------------------------------------------------------------------------------
  // The whitelist

  const AllowedExtensions: set<string> := {"png", "jpg", "jpeg", "gif", "pdf"}

  /** `allowed_file`: the name has a dot and the lower-cased text after its last dot is whitelisted. */
  function AllowedFile(filename: string): (ok: bool)
    ensures ok ==> '.' in filename
    ensures ok ==> |filename| - LastIndexOf(filename, '.') - 1 in {3, 4}
  {
    '.' in filename && LowerAscii(filename[LastIndexOf(filename, '.') + 1..]) in AllowedExtensions
  }

  /** `filename[i]` is a dot with no dot after it, and the lower-cased text after it is whitelisted. */
  predicate WhitelistedDotAt(filename: string, i: int)
  {
    0 <= i < |filename| && filename[i] == '.' && '.' !in filename[i + 1..]
    && LowerAscii(filename[i + 1..]) in AllowedExtensions
  }

  /** The whitelist test, stated without `rfind`: some dot is followed by a dot-free whitelisted extension. */
  lemma AllowedFileIff(filename: string)
    ensures AllowedFile(filename) <==> exists i :: WhitelistedDotAt(filename, i)
  {
    if AllowedFile(filename) {
      AllowedAtLastDot(filename);
    }
    if exists i :: WhitelistedDotAt(filename, i) {
      var i :| WhitelistedDotAt(filename, i);
      LastDotUnique(filename, i);
    }
  }

  lemma AllowedAtLastDot(filename: string)
    requires AllowedFile(filename)
    ensures WhitelistedDotAt(filename, LastIndexOf(filename, '.'))
  {
  }

  /** A dot with no dot after it is the last dot. */
  lemma LastDotUnique(s: string, i: int)
    requires 0 <= i < |s| && s[i] == '.' && '.' !in s[i + 1..]
    ensures LastIndexOf(s, '.') == i
  {
  }

  /** Any name ending in a dot and a whitelisted extension, in any letter case, passes, ".pdf" included. */
  lemma AllowedWithExtension(stem: string, ext: string)
    requires '.' !in ext && LowerAscii(ext) in AllowedExtensions
    ensures AllowedFile(stem + "." + ext)
  {
    var name := stem + "." + ext;
    assert name == stem + ("." + ext);
    LastIndexOfAppend(stem, "." + ext, '.');
    assert LastIndexOf("." + ext, '.') == 0 by {
      LastIndexOfAppend(".", ext, '.');
    }
    assert name[|stem| + 1..] == ext;
  }

  // ---------------------------------------------------------------------------------------------
  // Responses

  const UploadDisclaimer: string := "本建议仅供参考，不构成医疗诊断，请咨询专业医生获取准确诊断"
  const NoFilePart: string := "没有文件部分"
  const NoFileSelected: string := "没有选择文件"
  const UnsupportedFileType: string := "不支持的文件类型"
  const ProcessingFailed: string := "处理文件时出错: "
  const InvalidMode: string := "无效的推理模式，必须是local或server"

  /** The `result` object of a successful upload; its timestamp is not modelled. */
  datatype UploadResult = UploadResult(text: string, suggestions: L.Suggestions, disclaimer: string)

  /** The JSON bodies the endpoints send; `InternalError` is Flask's page for an uncaught exception. */
  datatype Body =
    | Error(message: string)
    | Uploaded(result: UploadResult)
    | ModeIs(mode: string)
    | ModeChanged(mode: string)
    | InternalError

  datatype Response = Response(status: int, body: Body)

  // ---------------------------------------------------------------------------------------------
  // Upload

  /** The `file` part of a multipart request; its filename may be missing altogether. */
  datatype FilePart = FilePart(filename: Option<string>)
  datatype UploadRequest = UploadRequest(file: Option<FilePart>)

  /**
   * The checks made before anything is saved or processed, in the handler's order: a missing
   * file part, then an empty filename, then a type that is not whitelisted (a part without a
   * filename is falsy and lands here too). Each rejection is a 400.
   */
  function UploadGuard(req: UploadRequest): (g: Result<string, Response>)
    ensures g.Failure? ==> g.error.status == 400 && g.error.body.Error?
    ensures g.Success? <==>
      req.file.Some? && req.file.value.filename.Some? && req.file.value.filename.value != ""
      && AllowedFile(req.file.value.filename.value)
    ensures g.Success? ==> g.value == req.file.value.filename.value
    ensures req.file.None? ==> g == Failure(Response(400, Error(NoFilePart)))
    ensures req.file.Some? && req.file.value.filename == Some("") ==> g == Failure(Response(400, Error(NoFileSelected)))
    ensures req.file.Some? && req.file.value.filename != Some("") && g.Failure? ==>
      g == Failure(Response(400, Error(UnsupportedFileType)))
  {
    if req.file.None? then Failure(Response(400, Error(NoFilePart)))
    else
      var name := req.file.value.filename;
      if name == Some("") then Failure(Response(400, Error(NoFileSelected)))
      else if name.Some? && AllowedFile(name.value) then Success(name.value)
      else Failure(Response(400, Error(UnsupportedFileType)))
  }

  /** `os.path.join(folder, name)`. */
  function PathJoin(folder: string, name: string): (r: string)
    ensures |name| <= |r| && r[|r| - |name|..] == name
    ensures StartsWith(name, "/") || folder == "" ==> r == name
    ensures !StartsWith(name, "/") ==> StartsWith(r, folder)
    ensures !StartsWith(name, "/") ==> |r| - |name| in {|folder|, |folder| + 1}
    ensures !StartsWith(name, "/") && folder != "" ==> r[|r| - |name| - 1] == '/'
    ensures !StartsWith(name, "/") && folder != "" ==>
      r[..|r| - |name|] == (if folder[|folder| - 1] == '/' then folder else folder + "/")
  {
    if StartsWith(name, "/") then name
    else if folder == "" || folder[|folder| - 1] == '/' then folder + name
    else folder + "/" + name
  }

  /** Where the upload is saved: the timestamp, an underscore and the secured name, in the upload folder. */
  function StoredPath(folder: string, timestamp: string, secured: string): (path: string)
    ensures var stamped := timestamp + "_" + secured;
      |stamped| <= |path| && path[|path| - |stamped|..] == stamped
    ensures !StartsWith(timestamp, "/") ==> StartsWith(path, folder)
  {
    var stamped := timestamp + "_" + secured;
    assert stamped[0] == if timestamp == "" then '_' else timestamp[0];
    PathJoin(folder, stamped)
  }

  /** The outcome of one upload: the response, and the inferrer's mode and backend calls it caused. */
  datatype UploadRun = UploadRun(response: Response, mode: string, attempts: seq<L.Backend>)

  /**
   * `upload_file`: a rejected request is answered 400 before any OCR or inference; an extraction
   * error is answered 500 with the error's message and no inference; otherwise the answer is 200
   * with the extracted text, the inferrer's suggestions for it and the fixed disclaimer.
   */
  function Upload(mode: string, url: string, req: UploadRequest, folder: string, timestamp: string,
                  secured: string, engine: O.EngineOutput,
                  localOk: string -> bool, server: L.ServerRequest -> L.ServerReply): (u: UploadRun)
    ensures UploadGuard(req).Failure? ==> u == UploadRun(UploadGuard(req).error, mode, [])
    ensures u.response.status in {200, 400, 500}
    ensures u.response.status == 400 <==> UploadGuard(req).Failure?
    ensures u.response.status == 500 <==>
      UploadGuard(req).Success? && O.ExtractedText(StoredPath(folder, timestamp, secured), engine).Failure?
    ensures u.response.status == 500 ==>
      u.mode == mode && u.attempts == []
      && u.response.body == Error(ProcessingFailed
           + O.Message(O.ExtractedText(StoredPath(folder, timestamp, secured), engine).error))
    ensures u.response.status == 200 ==>
      var text := O.ExtractedText(StoredPath(folder, timestamp, secured), engine).value;
      var run := L.Dispatch(mode, url, L.BuildPrompt(text), localOk, server);
      && u.response.body == Uploaded(UploadResult(text, run.result, UploadDisclaimer))
      && u.mode == run.mode && u.attempts == run.attempts
  {
    match UploadGuard(req)
    case Failure(rejection) => UploadRun(rejection, mode, [])
    case Success(_) =>
      match O.ExtractedText(StoredPath(folder, timestamp, secured), engine)
      case Failure(e) => UploadRun(Response(500, Error(ProcessingFailed + O.Message(e))), mode, [])
      case Success(text) =>
        var run := L.Dispatch(mode, url, L.BuildPrompt(text), localOk, server);
        UploadRun(Response(200, Uploaded(UploadResult(text, run.result, UploadDisclaimer))), run.mode, run.attempts)
  }

  /** A timestamp as `strftime('%Y%m%d%H%M%S')` writes it: digits only. */
  predicate IsDigits(s: string) {
    forall i :: 0 <= i < |s| ==> '0' <= s[i] <= '9'
  }

  /** The extension of the stored file is the secured name's, as the timestamp prefix has no dot. */
  lemma StoredPathExtension(folder: string, timestamp: string, secured: string)
    requires IsDigits(timestamp) && timestamp != ""
    requires '/' !in secured
    ensures O.Extension(StoredPath(folder, timestamp, secured))
      == if '.' in secured then secured[LastIndexOf(secured, '.')..] else ""
  {
    var base := timestamp + "_" + secured;
    StampedName(timestamp, secured);
    if folder == "" || folder[|folder| - 1] == '/' {
      O.ExtensionOfBase(folder, base);
    } else {
      assert folder + "/" + base == (folder + "/") + base;
      O.ExtensionOfBase(folder + "/", base);
    }
    O.ExtensionOfName(base);
  }

  /** The saved name has no slash, does not start with one or with a dot, and its last dot is the secured name's. */
  lemma StampedName(timestamp: string, secured: string)
    requires IsDigits(timestamp) && timestamp != ""
    requires '/' !in secured
    ensures var base := timestamp + "_" + secured;
      && '/' !in base && base[0] != '.' && !StartsWith(base, "/")
      && ('.' in base <==> '.' in secured)
      && ('.' in secured ==> base[LastIndexOf(base, '.')..] == secured[LastIndexOf(secured, '.')..])
  {
    var prefix := timestamp + "_";
    var base := prefix + secured;
    assert '/' !in prefix && '.' !in prefix by {
      forall i | 0 <= i < |prefix| ensures prefix[i] != '/' && prefix[i] != '.' {
        if i < |timestamp| { assert '0' <= timestamp[i] <= '9'; }
      }
    }
    LastIndexOfAppend(prefix, secured, '/');
    LastIndexOfAppend(prefix, secured, '.');
    assert base[0] == timestamp[0];
    if '.' in secured {
      var d := LastIndexOf(secured, '.');
      assert base[|prefix| + d..] == secured[d..];
    }
  }

  /**
   * A whitelisted upload whose stored name ends in ".pdf", in any case, is always answered 500
   * with the "PDF not supported" message, and the inferrer is never consulted: ".pdf" passes
   * the whitelist but extraction refuses it.
   */
  lemma PdfUploadAlwaysFails(mode: string, url: string, req: UploadRequest, folder: string,
                              timestamp: string, secured: string, engine: O.EngineOutput,
                              localOk: string -> bool, server: L.ServerRequest -> L.ServerReply)
    requires UploadGuard(req).Success?
    requires IsDigits(timestamp) && timestamp != ""
    requires '/' !in secured && '.' in secured
    requires LowerAscii(secured[LastIndexOf(secured, '.')..]) == ".pdf"
    ensures Upload(mode, url, req, folder, timestamp, secured, engine, localOk, server)
      == UploadRun(Response(500, Error(ProcessingFailed + "PDF处理需要额外配置，请使用图片格式")), mode, [])
  {
    StoredPathExtension(folder, timestamp, secured);
    O.PdfAlwaysFails(StoredPath(folder, timestamp, secured), engine);
  }

  /** The upload handler, acting on the process-wide inferrer. */
  method UploadFile(inferrer: L.Inferrer, req: UploadRequest, folder: string, timestamp: string,
                    secured: string, engine: O.EngineOutput,
                    localOk: string -> bool, server: L.ServerRequest -> L.ServerReply)
    returns (resp: Response)
    modifies inferrer`mode, inferrer`attempts
    ensures var u := Upload(old(inferrer.mode), inferrer.serverApiUrl, req, folder, timestamp, secured,
                            engine, localOk, server);
      resp == u.response && inferrer.mode == u.mode && inferrer.attempts == old(inferrer.attempts) + u.attempts
  {
    var guard := UploadGuard(req);
    if guard.Failure? {
      return guard.error;
    }
    var path := StoredPath(folder, timestamp, secured);
    var extracted := O.ExtractText(path, engine);
    if extracted.Failure? {
      return Response(500, Error(ProcessingFailed + O.Message(extracted.error)));
    }
    var suggestions := inferrer.GetSuggestions(extracted.value, localOk, server);
    resp := Response(200, Uploaded(UploadResult(extracted.value, suggestions, UploadDisclaimer)));
  }

  // ---------------------------------------------------------------------------------------------
  // The `.env` rewrite

  const ModeKey: string := "INFERENCE_MODE="

  /** One line of the `.env` file as written back: a mode line is replaced, any other is kept. */
  function RewriteLine(line: string, mode: string): string
  {
    if StartsWith(line, ModeKey) then ModeKey + mode + "\n" else line
  }

  /**
   * The lines written back: as many as were read, in the same order; each line starting with
   * the key now gives the new mode, and every other line is unchanged.
   */
  function RewriteEnv(lines: seq<string>, mode: string): (r: seq<string>)
    ensures |r| == |lines|
    ensures forall i :: 0 <= i < |lines| ==>
      (StartsWith(lines[i], ModeKey) ==> r[i] == ModeKey + mode + "\n")
      && (!StartsWith(lines[i], ModeKey) ==> r[i] == lines[i])
    ensures forall i :: 0 <= i < |lines| ==> (StartsWith(r[i], ModeKey) <==> StartsWith(lines[i], ModeKey))
  {
    seq(|lines|, i requires 0 <= i < |lines| => RewriteLine(lines[i], mode))
  }

  /** Without a mode line, the lines read are written back unchanged: no line is ever added. */
  lemma RewriteWithoutModeLine(lines: seq<string>, mode: string)
    requires forall i :: 0 <= i < |lines| ==> !StartsWith(lines[i], ModeKey)
    ensures RewriteEnv(lines, mode) == lines
  {
  }

  /** A later rewrite overrides an earlier one; with the same mode, rewriting is idempotent. */
  lemma RewriteOverrides(lines: seq<string>, m1: string, m2: string)
    ensures RewriteEnv(RewriteEnv(lines, m1), m2) == RewriteEnv(lines, m2)
  {
  }

  lemma RewriteIdempotent(lines: seq<string>, mode: string)
    ensures RewriteEnv(RewriteEnv(lines, mode), mode) == RewriteEnv(lines, mode)
  {
    RewriteOverrides(lines, mode, mode);
  }

  /** The `for line in lines` loop: the lines written, in order. */
  method WriteEnv(lines: seq<string>, mode: string) returns (written: seq<string>)
    ensures written == RewriteEnv(lines, mode)
  {
    written := [];
    for i := 0 to |lines|
      invariant |written| == i
      invariant forall k :: 0 <= k < i ==> written[k] == RewriteLine(lines[k], mode)
    {
      if StartsWith(lines[i], ModeKey) {
        written := written + [ModeKey + mode + "\n"];
      } else {
        written := written + [lines[i]];
      }
    }
  }

  // ---------------------------------------------------------------------------------------------
  // The inference-mode endpoint

  /** A GET, or a POST whose JSON `mode` field is given (any non-string value acts as an unknown one). */
  datatype ModeRequest = GetMode | PostMode(requested: Option<string>)

  /** The outcome of one request: the response, the inferrer's mode, and the `.env` lines afterwards. */
  datatype ModeRun = ModeRun(response: Response, mode: string, env: Option<seq<string>>)

  /**
   * `set_inference_mode`. GET answers the current mode. A POST of "local" or "server" sets the
   * mode, rewrites the `.env` lines and echoes the mode; if the `.env` file cannot be read the
   * mode is already set and the request fails with 500. Any other POST is a 400 that changes
   * neither the mode nor the file. `env` is the file's lines, `None` when it cannot be read.
   */
  function ModeEndpoint(current: string, req: ModeRequest, env: Option<seq<string>>): (m: ModeRun)
    ensures req.GetMode? ==> m == ModeRun(Response(200, ModeIs(current)), current, env)
    ensures req.PostMode? && req.requested !in {Some("local"), Some("server")} ==>
      m == ModeRun(Response(400, Error(InvalidMode)), current, env)
    ensures req.PostMode? && req.requested in {Some("local"), Some("server")} ==>
      m.mode == req.requested.value
      && (env.Some? ==> m.response == Response(200, ModeChanged(req.requested.value))
                        && m.env == Some(RewriteEnv(env.value, req.requested.value)))
      && (env.None? ==> m.response == Response(500, InternalError) && m.env == None)
    ensures m.mode == current || m.mode in {"local", "server"}
  {
    match req
    case GetMode => ModeRun(Response(200, ModeIs(current)), current, env)
    case PostMode(requested) =>
      if requested == Some("local") || requested == Some("server") then
        var mode := requested.value;
        match env
        case None => ModeRun(Response(500, InternalError), mode, None)
        case Some(lines) => ModeRun(Response(200, ModeChanged(mode)), mode, Some(RewriteEnv(lines, mode)))
      else ModeRun(Response(400, Error(InvalidMode)), current, env)
  }

  /** After an accepted POST, a GET answers the mode just set. */
  lemma SetThenGet(current: string, mode: string, env: Option<seq<string>>, env2: Option<seq<string>>)
    requires mode in {"local", "server"}
    ensures ModeEndpoint(ModeEndpoint(current, PostMode(Some(mode)), env).mode, GetMode, env2).response
      == Response(200, ModeIs(mode))
  {
  }

  /** The endpoint acting on the process-wide inferrer; returns the `.env` lines as they are afterwards. */
  method InferenceModeEndpoint(inferrer: L.Inferrer, req: ModeRequest, env: Option<seq<string>>)
    returns (resp: Response, newEnv: Option<seq<string>>)
    modifies inferrer`mode
    ensures var m := ModeEndpoint(old(inferrer.mode), req, env);
      resp == m.response && inferrer.mode == m.mode && newEnv == m.env
  {
    match req
    case GetMode =>
      resp, newEnv := Response(200, ModeIs(inferrer.mode)), env;
    case PostMode(requested) =>
      if requested == Some("local") || requested == Some("server") {
        var mode := requested.value;
        inferrer.mode := mode;
        if env.None? {
          resp, newEnv := Response(500, InternalError), None;
        } else {
          var written := WriteEnv(env.value, mode);
          resp, newEnv := Response(200, ModeChanged(mode)), Some(written);
        }
      } else {
        resp, newEnv := Response(400, Error(InvalidMode)), env;
      }
  }
}

=== FILE: llm_inferrer.dfy ===
/**
 * The inference orchestrator: it builds the prompt from the extracted text, dispatches on its
 * mutable `mode` to the local or the server backend, normalises the server's reply into one
 * result shape, and degrades to a canned result when a backend fails. A local failure switches
 * `mode` to "server" for good; a server failure never touches it.
 *
 * Both backends are oracles: the local one says whether inference on a prompt succeeds, the
 * server one maps the request that would be POSTed to the reply (or transport error) it gets.
 */
module LlmInferrer {
  import opened Wrappers
  import opened Text

  /** The dictionary every inference path returns, with its five keys. */
  datatype Suggestions = Suggestions(
    summary: string,
    analysis: string,
    recommendations: seq<string>,
    lifestyleAdvice: string,
    mode: string)

  // ---------------------------------------------------------------------------------------------
  // The prompt

  const PromptHead: string := "\n你是一位专业的医疗顾问，请根据以下病历内容提供专业、准确的医疗建议。\n\n病历内容：\n"
  const SectionsIntro: string := "\n\n请提供以下内容：\n"
  const Section1: string := "1. 对病历内容的简要总结"
  const Section2: string := "2. 可能的健康问题分析"
  const Section3: string := "3. 建议的下一步行动"
  const Section4: string := "4. 生活方式调整建议（如适用）"
  const Disclaimer: string := "注意：你的回答仅供参考，不构成医疗诊断，请在实际应用中提醒用户咨询专业医生。"
  const PromptTail: string :=
    SectionsIntro + Section1 + "\n" + Section2 + "\n" + Section3 + "\n" + Section4 + "\n\n" + Disclaimer + "\n"

  /** The templated prompt around the medical text; defined for every text, the empty one included. */
  function BuildPrompt(text: string): (p: string)
    ensures |p| == |PromptHead| + |text| + |PromptTail|
    ensures StartsWith(p, PromptHead)
    ensures OccursAt(p, text, |PromptHead|)
  {
    PromptHead + text + PromptTail
  }

  /** Reads the medical text back out of a prompt, if `p` has the template's shape. */
  function PromptText(p: string): Option<string>
  {
    if |PromptHead| + |PromptTail| <= |p| && p[..|PromptHead|] == PromptHead
       && p[|p| - |PromptTail|..] == PromptTail
    then Some(p[|PromptHead|..|p| - |PromptTail|])
    else None
  }

  /** The prompt carries its text verbatim: it can be read back, so distinct texts give distinct prompts. */
  lemma PromptRoundTrip(text: string)
    ensures PromptText(BuildPrompt(text)) == Some(text)
  {
    var p := BuildPrompt(text);
    assert p[..|PromptHead|] == PromptHead;
    assert p[|p| - |PromptTail|..] == PromptTail;
    assert p[|PromptHead|..|p| - |PromptTail|] == text;
  }

  lemma PromptInjective(a: string, b: string)
    requires BuildPrompt(a) == BuildPrompt(b)
    ensures a == b
  {
    PromptRoundTrip(a);
    PromptRoundTrip(b);
  }

  lemma OccursBetween(a: string, b: string, c: string)
    ensures OccursAt(a + b + c, b, |a|)
  {
    assert (a + b + c)[|a|..|a| + |b|] == b;
  }

  lemma OccursShift(h: string, t: string, x: string, k: int)
    requires OccursAt(t, x, k)
    ensures OccursAt(h + t, x, |h| + k)
  {
    assert (h + t)[|h| + k..|h| + k + |x|] == t[k..k + |x|];
  }

  /** The section requests and the disclaimer, at their offsets within the fixed tail. */
  lemma TailLayout()
    ensures var s1 := |SectionsIntro|;
      var s2 := s1 + |Section1| + 1;
      var s3 := s2 + |Section2| + 1;
      var s4 := s3 + |Section3| + 1;
      var d := s4 + |Section4| + 2;
      && OccursAt(PromptTail, Section1, s1) && OccursAt(PromptTail, Section2, s2)
      && OccursAt(PromptTail, Section3, s3) && OccursAt(PromptTail, Section4, s4)
      && OccursAt(PromptTail, Disclaimer, d) && d + |Disclaimer| + 1 == |PromptTail|
  {
    var pre1 := SectionsIntro;
    var pre2 := pre1 + Section1 + "\n";
    var pre3 := pre2 + Section2 + "\n";
    var pre4 := pre3 + Section3 + "\n";
    var preD := pre4 + Section4 + "\n\n";
    assert PromptTail == preD + Disclaimer + "\n";
    OccursBetween(pre1, Section1, "\n" + Section2 + "\n" + Section3 + "\n" + Section4 + "\n\n" + Disclaimer + "\n");
    OccursBetween(pre2, Section2, "\n" + Section3 + "\n" + Section4 + "\n\n" + Disclaimer + "\n");
    OccursBetween(pre3, Section3, "\n" + Section4 + "\n\n" + Disclaimer + "\n");
    OccursBetween(pre4, Section4, "\n\n" + Disclaimer + "\n");
    OccursBetween(preD, Disclaimer, "\n");
  }

  /**
   * After the text the prompt asks for the four numbered sections, in order, each on its own
   * line, and then gives the disclaimer line.
   */
  lemma PromptSectionsInOrder(text: string)
    ensures var p := BuildPrompt(text);
      var s1 := |PromptHead| + |text| + |SectionsIntro|;
      var s2 := s1 + |Section1| + 1;
      var s3 := s2 + |Section2| + 1;
      var s4 := s3 + |Section3| + 1;
      var d := s4 + |Section4| + 2;
      && OccursAt(p, Section1, s1) && OccursAt(p, Section2, s2)
      && OccursAt(p, Section3, s3) && OccursAt(p, Section4, s4)
      && OccursAt(p, Disclaimer, d) && d + |Disclaimer| + 1 == |p|
  {
    var h := PromptHead + text;
    assert BuildPrompt(text) == h + PromptTail;
    TailLayout();
    var s1 := |SectionsIntro|;
    var s2 := s1 + |Section1| + 1;
    var s3 := s2 + |Section2| + 1;
    var s4 := s3 + |Section3| + 1;
    var d := s4 + |Section4| + 2;
    OccursShift(h, PromptTail, Section1, s1);
    OccursShift(h, PromptTail, Section2, s2);
    OccursShift(h, PromptTail, Section3, s3);
    OccursShift(h, PromptTail, Section4, s4);
    OccursShift(h, PromptTail, Disclaimer, d);
  }

  // ---------------------------------------------------------------------------------------------
  // The fixed results

  /** What the mocked local model answers: three recommendations, tagged "local". */
  function LocalResult(): (r: Suggestions)
    ensures r.mode == "local" && |r.recommendations| == 3
  {
    Suggestions(
      "这是病历内容的简要总结（模拟）",
      "基于病历内容的健康问题分析（模拟）",
      ["建议1：继续观察症状变化", "建议2：保持良好的生活习惯", "建议3：如症状加重，及时就医"],
      "健康的生活方式建议（模拟）",
      "local")
  }

  /** The degraded result: tagged "fallback", with the one recommendation to consult a doctor. */
  function Fallback(): (r: Suggestions)
    ensures r.mode == "fallback" && r.recommendations == ["建议您咨询专业医生获取准确诊断"]
  {
    Suggestions(
      "无法获取病历分析，请检查输入或重试",
      "系统暂时无法提供详细分析",
      ["建议您咨询专业医生获取准确诊断"],
      "保持健康的生活方式对恢复健康非常重要",
      "fallback")
  }

  // ---------------------------------------------------------------------------------------------
  // The server backend

  const MaxLength: int := 2048
  const Temperature: real := 0.7

  /** The JSON body POSTed to the inference endpoint, with the endpoint's URL. */
  datatype ServerRequest = ServerRequest(url: string, prompt: string, maxLength: int, temperature: real)

  function RequestFor(url: string, prompt: string): (q: ServerRequest)
    ensures q.url == url && q.prompt == prompt && q.maxLength == 2048
  {
    ServerRequest(url, prompt, MaxLength, Temperature)
  }

  /** The optional fields of a JSON object body; `None` is a key the body does not have. */
  datatype ResponseFields = ResponseFields(
    summary: Option<string>,
    analysis: Option<string>,
    recommendations: Option<seq<string>>,
    lifestyleAdvice: Option<string>)

  /** What `response.json()` yields: an object, another JSON value (no `.get`), or a parse error. */
  datatype Payload = Object(fields: ResponseFields) | NotAnObject | Unparseable

  /** What `requests.post` yields: a response, or the exception it raises. */
  datatype ServerReply = Reply(status: int, payload: Payload) | TransportError | Timeout

  /** Maps a reply body into the result shape; every missing field becomes the empty value. */
  function Normalize(f: ResponseFields): (r: Suggestions)
    ensures r.mode == "server"
    ensures r.summary == (if f.summary.Some? then f.summary.value else "")
    ensures r.analysis == (if f.analysis.Some? then f.analysis.value else "")
    ensures r.recommendations == (if f.recommendations.Some? then f.recommendations.value else [])
    ensures r.lifestyleAdvice == (if f.lifestyleAdvice.Some? then f.lifestyleAdvice.value else "")
  {
    Suggestions(
      f.summary.GetOr(""),
      f.analysis.GetOr(""),
      f.recommendations.GetOr([]),
      f.lifestyleAdvice.GetOr(""),
      "server")
  }

  /** The raw shape of a result: a body with every field present. */
  function Fields(s: Suggestions): ResponseFields
  {
    ResponseFields(Some(s.summary), Some(s.analysis), Some(s.recommendations), Some(s.lifestyleAdvice))
  }

  /** Normalising the raw shape of a server result gives that result back. */
  lemma NormalizeRoundTrip(s: Suggestions)
    requires s.mode == "server"
    ensures Normalize(Fields(s)) == s
  {
  }

  /** Normalising is idempotent through the raw shape. */
  lemma NormalizeIdempotent(f: ResponseFields)
    ensures Normalize(Fields(Normalize(f))) == Normalize(f)
  {
  }

  /**
   * The result of one server call: the normalised body exactly when the status is 200 and the
   * body parses to an object; the fallback result on any other status, a parse failure, a
   * transport error or a timeout.
   */
  function ServerResult(reply: ServerReply): (r: Suggestions)
    ensures r.mode == "server" <==> reply.Reply? && reply.status == 200 && reply.payload.Object?
    ensures r.mode == "server" ==> r == Normalize(reply.payload.fields)
    ensures r.mode != "server" ==> r == Fallback()
  {
    match reply
    case Reply(status, payload) =>
      if status == 200 then
        match payload
        case Object(f) => Normalize(f)
        case _ => Fallback()
      else Fallback()
    case _ => Fallback()
  }

  /** A 200 reply whose object body omits `recommendations` gives a genuine server result with none. */
  lemma ServerResultMayHaveNoRecommendations(f: ResponseFields)
    requires f.recommendations.None?
    ensures ServerResult(Reply(200, Object(f))).mode == "server"
    ensures ServerResult(Reply(200, Object(f))).recommendations == []
  {
  }

  // ---------------------------------------------------------------------------------------------
  // Dispatch and fallback

  datatype Backend = LocalBackend | ServerBackend

  /** The outcome of one call: its result, the mode afterwards, and the backends it invoked in order. */
  datatype Run = Run(result: Suggestions, mode: string, attempts: seq<Backend>)

  /**
   * One `get_suggestions` call on `prompt` under `mode`. The local backend is tried exactly when
   * the mode is "local" (any other string, validated or not, goes to the server). A local failure
   * sets the mode to "server" and makes exactly one server attempt; the server path never
   * changes the mode. The result is always one of local, server or fallback.
   */
  function Dispatch(mode: string, url: string, prompt: string,
                    localOk: string -> bool, server: ServerRequest -> ServerReply): (run: Run)
    ensures run.attempts in {[LocalBackend], [ServerBackend], [LocalBackend, ServerBackend]}
    ensures run.attempts[0] == LocalBackend <==> mode == "local"
    ensures run.attempts == [LocalBackend] <==> mode == "local" && localOk(prompt)
    ensures run.attempts == [LocalBackend] ==> run.result == LocalResult() && run.mode == mode
    ensures run.attempts == [LocalBackend, ServerBackend] ==> run.mode == "server"
    ensures ServerBackend in run.attempts ==> run.result == ServerResult(server(RequestFor(url, prompt)))
    ensures mode != "local" ==> run.mode == mode
    ensures run.mode == mode || (mode == "local" && run.mode == "server")
    ensures run.result.mode in {"local", "server", "fallback"}
    ensures run.result.mode == "local" <==> run.attempts == [LocalBackend]
    ensures run.result.mode == "fallback" ==> run.result == Fallback()
  {
    if mode == "local" then
      if localOk(prompt) then Run(LocalResult(), mode, [LocalBackend])
      else Run(ServerResult(server(RequestFor(url, prompt))), "server", [LocalBackend, ServerBackend])
    else Run(ServerResult(server(RequestFor(url, prompt))), mode, [ServerBackend])
  }

  /** One call to `get_suggestions`: its text and what each backend would do with it. */
  datatype Call = Call(text: string, localOk: string -> bool, server: ServerRequest -> ServerReply)

  /** A sequence of calls on one inferrer that starts in `mode`; each call sees the previous one's mode. */
  function Session(mode: string, url: string, calls: seq<Call>): (runs: seq<Run>)
    ensures |runs| == |calls|
    decreases |calls|
  {
    if calls == [] then []
    else
      var first := Dispatch(mode, url, BuildPrompt(calls[0].text), calls[0].localOk, calls[0].server);
      [first] + Session(first.mode, url, calls[1..])
  }

  /** The mode the `i`-th call of a session starts in. */
  function ModeBefore(mode: string, runs: seq<Run>, i: nat): string
    requires i <= |runs|
  {
    if i == 0 then mode else runs[i - 1].mode
  }

  /** Each call of a session is the dispatch of its own call under the mode the previous call left. */
  lemma {:induction false} SessionStep(mode: string, url: string, calls: seq<Call>, i: nat)
    requires i < |calls|
    ensures var runs := Session(mode, url, calls);
      runs[i] == Dispatch(ModeBefore(mode, runs, i), url, BuildPrompt(calls[i].text), calls[i].localOk, calls[i].server)
    decreases i
  {
    var first := Dispatch(mode, url, BuildPrompt(calls[0].text), calls[0].localOk, calls[0].server);
    var rest := Session(first.mode, url, calls[1..]);
    var runs := Session(mode, url, calls);
    assert runs == [first] + rest;
    if i > 0 {
      SessionStep(first.mode, url, calls[1..], i - 1);
      var m, c := ModeBefore(first.mode, rest, i - 1), calls[1..][i - 1];
      assert rest[i - 1] == Dispatch(m, url, BuildPrompt(c.text), c.localOk, c.server);
      assert runs[i] == rest[i - 1];
      assert ModeBefore(mode, runs, i) == m;
      assert calls[i] == c;
    }
  }

  lemma {:induction false} AbsorbingAt(mode: string, url: string, calls: seq<Call>, i: nat)
    requires mode != "local" && i < |calls|
    ensures Session(mode, url, calls)[i].mode == mode
    ensures Session(mode, url, calls)[i].attempts == [ServerBackend]
    decreases i
  {
    SessionStep(mode, url, calls, i);
    if i > 0 {
      AbsorbingAt(mode, url, calls, i - 1);
    }
  }

  /** Once the mode is anything but "local", every later call goes to the server and keeps the mode. */
  lemma ServerModeIsAbsorbing(mode: string, url: string, calls: seq<Call>)
    requires mode != "local"
    ensures forall i :: 0 <= i < |calls| ==>
      Session(mode, url, calls)[i].mode == mode && Session(mode, url, calls)[i].attempts == [ServerBackend]
  {
    forall i | 0 <= i < |calls|
      ensures Session(mode, url, calls)[i].mode == mode && Session(mode, url, calls)[i].attempts == [ServerBackend]
    {
      AbsorbingAt(mode, url, calls, i);
    }
  }

  /** The switch to the server is permanent: after a call that leaves "server", all later calls stay there. */
  lemma {:induction false} ServerSwitchIsPermanent(mode: string, url: string, calls: seq<Call>, i: nat, j: nat)
    requires i < j < |calls|
    requires Session(mode, url, calls)[i].mode == "server"
    ensures Session(mode, url, calls)[j].mode == "server"
    ensures Session(mode, url, calls)[j].attempts == [ServerBackend]
    decreases j
  {
    SessionStep(mode, url, calls, j);
    if i < j - 1 {
      ServerSwitchIsPermanent(mode, url, calls, i, j - 1);
    }
  }

  /**
   * If the local backend fails on every prompt, the first call tries local then server and
   * leaves the mode "server"; every later call goes straight to the server.
   */
  lemma LocalAlwaysFailing(url: string, calls: seq<Call>)
    requires |calls| > 0
    requires forall i :: 0 <= i < |calls| ==> !calls[i].localOk(BuildPrompt(calls[i].text))
    ensures var runs := Session("local", url, calls);
      && runs[0].attempts == [LocalBackend, ServerBackend]
      && (forall i :: 0 <= i < |runs| ==> runs[i].mode == "server")
      && (forall i :: 1 <= i < |runs| ==> runs[i].attempts == [ServerBackend])
  {
    var runs := Session("local", url, calls);
    SessionStep("local", url, calls, 0);
    assert runs[0].mode == "server";
    forall i | 1 <= i < |runs|
      ensures runs[i].mode == "server" && runs[i].attempts == [ServerBackend]
    {
      ServerSwitchIsPermanent("local", url, calls, 0, i);
    }
  }

  lemma {:induction false} ModeValidAt(mode: string, url: string, calls: seq<Call>, i: nat)
    requires mode in {"local", "server"} && i < |calls|
    ensures Session(mode, url, calls)[i].mode in {"local", "server"}
    ensures Session(mode, url, calls)[i].result.mode in {"local", "server", "fallback"}
    decreases i
  {
    SessionStep(mode, url, calls, i);
    if i > 0 {
      ModeValidAt(mode, url, calls, i - 1);
    }
  }

  /** A session that starts in a valid mode stays in {local, server}; its results are never from another path. */
  lemma SessionModesValid(mode: string, url: string, calls: seq<Call>)
    requires mode in {"local", "server"}
    ensures forall i :: 0 <= i < |calls| ==>
      Session(mode, url, calls)[i].mode in {"local", "server"}
      && Session(mode, url, calls)[i].result.mode in {"local", "server", "fallback"}
  {
    forall i | 0 <= i < |calls|
      ensures Session(mode, url, calls)[i].mode in {"local", "server"}
        && Session(mode, url, calls)[i].result.mode in {"local", "server", "fallback"}
    {
      ModeValidAt(mode, url, calls, i);
    }
  }

  // ---------------------------------------------------------------------------------------------
  // The inferrer object

  const DefaultModelPath: string := "./models/"
  const DefaultServerUrl: string := "http://localhost:8866/predict"

  class Inferrer {
    /** The inference mode: "local" dispatches locally, any other string to the server. */
    var mode: string
    var localModelPath: string
    var serverApiUrl: string
    /** `self.model` is set (the mock model is loaded). */
    var modelLoaded: bool
    /** Every backend invocation made through this object, in order. */
    ghost var attempts: seq<Backend>

    /**
     * Stores the mode as given, without validating it; in "local" mode it initialises the local
     * model, whose failure (the oracle `initSucceeds`) switches the mode to "server".
     */
    constructor (initSucceeds: bool, mode: string := "local", localModelPath: string := DefaultModelPath,
                 serverApiUrl: string := DefaultServerUrl)
      ensures this.mode == (if mode == "local" && !initSucceeds then "server" else mode)
      ensures modelLoaded == (mode == "local" && initSucceeds)
      ensures this.localModelPath == localModelPath && this.serverApiUrl == serverApiUrl
      ensures attempts == []
    {
      this.mode := mode;
      this.localModelPath := localModelPath;
      this.serverApiUrl := serverApiUrl;
      modelLoaded := false;
      attempts := [];
      new;
      if mode == "local" {
        InitLocalModel(initSucceeds);
      }
    }

    /** Loads the model; on failure leaves it unloaded and switches to "server". */
    method InitLocalModel(succeeds: bool)
      modifies this`mode, this`modelLoaded
      ensures succeeds ==> modelLoaded && mode == old(mode)
      ensures !succeeds ==> mode == "server" && modelLoaded == old(modelLoaded)
    {
      if succeeds {
        modelLoaded := true;
      } else {
        mode := "server";
      }
    }

    /** Builds the prompt and dispatches on the current mode; never fails. */
    method GetSuggestions(text: string, localOk: string -> bool, server: ServerRequest -> ServerReply)
      returns (r: Suggestions)
      modifies this`mode, this`attempts
      ensures var run := Dispatch(old(mode), serverApiUrl, BuildPrompt(text), localOk, server);
        r == run.result && mode == run.mode && attempts == old(attempts) + run.attempts
    {
      var prompt := BuildPrompt(text);
      if mode == "local" {
        r := InferLocal(prompt, localOk, server);
      } else {
        r := InferServer(prompt, server);
      }
    }

    /** Local inference; on failure switches the mode to "server" for good and retries there once. */
    method InferLocal(prompt: string, localOk: string -> bool, server: ServerRequest -> ServerReply)
      returns (r: Suggestions)
      modifies this`mode, this`attempts
      ensures localOk(prompt) ==>
        r == LocalResult() && mode == old(mode) && attempts == old(attempts) + [LocalBackend]
      ensures !localOk(prompt) ==>
        && r == ServerResult(server(RequestFor(serverApiUrl, prompt)))
        && mode == "server"
        && attempts == old(attempts) + [LocalBackend, ServerBackend]
    {
      attempts := attempts + [LocalBackend];
      if localOk(prompt) {
        r := LocalResult();
      } else {
        mode := "server";
        r := InferServer(prompt, server);
      }
    }

    /** One POST to the server; every failure becomes the fallback result and the mode is left alone. */
    method InferServer(prompt: string, server: ServerRequest -> ServerReply) returns (r: Suggestions)
      modifies this`attempts
      ensures r == ServerResult(server(RequestFor(serverApiUrl, prompt)))
      ensures attempts == old(attempts) + [ServerBackend]
    {
      attempts := attempts + [ServerBackend];
      var reply := server(RequestFor(serverApiUrl, prompt));
      r := ServerResult(reply);
    }
  }

  /**
   * The smoke scenario: an inferrer built in "local" mode with the mock model (which neither
   * fails to load nor fails to infer) answers with the local result; one built in "server" mode
   * answers with whatever the server reply maps to.
   */
  method SmokeTest(text: string, server: ServerRequest -> ServerReply)
    returns (localResult: Suggestions, serverResult: Suggestions)
    ensures localResult == LocalResult()
    ensures serverResult == ServerResult(server(RequestFor(DefaultServerUrl, BuildPrompt(text))))
  {
    var local := new Inferrer(true);
    localResult := local.GetSuggestions(text, p => true, server);
    var remote := new Inferrer(true, "server");
    serverResult := remote.GetSuggestions(text, p => true, server);
  }
}

=== FILE: ocr_processor.dfy ===
/**
 * The OCR post-processing: the dispatch on the file extension, the flattening of the OCR
 * engine's nested result into newline-separated text, and the binarisation of a grey image.
 * The engine itself is not modelled; its result for the file is an input.
 */
module OcrProcessor {
  import opened Wrappers
  import opened Text

  // ---------------------------------------------------------------------------------------------
  // Extensions

  /** `os.path.splitext(path)[1]` on POSIX: from the last dot of the last path component, unless
      that component is only dots before it (a leading-dot name such as ".png" has no extension). */
  function Extension(path: string): (ext: string)
    ensures ext == "" || (ext[0] == '.' && '.' !in ext[1..] && '/' !in ext)
  {
    var slash := LastIndexOf(path, '/');
    var dot := LastIndexOf(path, '.');
    if dot > slash && HasNonDot(path, slash + 1, dot) then path[dot..] else ""
  }

  /**
   * `root + ext == path`: the extension is a suffix of the path, and a non-empty one starts at
   * the path's last dot.
   */
  lemma ExtensionIsSuffix(path: string)
    ensures var ext := Extension(path);
      |ext| <= |path| && ext == path[|path| - |ext|..]
      && (ext != "" ==> |path| - |ext| == LastIndexOf(path, '.'))
  {
  }

  /** Some character of `path[from..to]` is not a dot. */
  predicate HasNonDot(path: string, from: int, to: int)
    requires 0 <= from <= to <= |path|
  {
    exists k :: from <= k < to && path[k] != '.'
  }

  lemma HasNonDotShift(dir: string, base: string, from: int, to: int)
    requires 0 <= from <= to <= |base|
    ensures HasNonDot(dir + base, |dir| + from, |dir| + to) == HasNonDot(base, from, to)
  {
    var p := dir + base;
    if HasNonDot(base, from, to) {
      var k :| from <= k < to && base[k] != '.';
      assert p[|dir| + k] == base[k];
    }
    if HasNonDot(p, |dir| + from, |dir| + to) {
      var k :| |dir| + from <= k < |dir| + to && p[k] != '.';
      assert base[k - |dir|] == p[k];
    }
  }

  /** A directory prefix ending in '/' does not change the extension of the name after it. */
  lemma ExtensionOfBase(dir: string, base: string)
    requires dir == "" || dir[|dir| - 1] == '/'
    requires '/' !in base
  ensures Extension(dir + base) == Extension(base)
  {
    if '.' in base {
      ExtensionOfBaseWithDot(dir, base);
    } else {
      SlashOfJoined(dir, base);
      LastIndexOfAppend(dir, base, '.');
    }
  }

  lemma ExtensionOfBaseWithDot(dir: string, base: string)
    requires dir == "" || dir[|dir| - 1] == '/'
    requires '/' !in base && '.' in base
    ensures Extension(dir + base) == Extension(base)
  {
    var p := dir + base;
    var dot := LastIndexOf(base, '.');
    SlashOfJoined(dir, base);
    DotOfJoined(dir, base);
    HasNonDotShift(dir, base, 0, dot);
    assert p[|dir| + dot..] == base[dot..];
    SameExtension(p, base, |dir|, dot);
  }

  /** Two paths whose last component starts at `k` and at 0 and whose last dots match have one extension. */
  lemma SameExtension(p: string, base: string, k: int, dot: int)
    requires 0 <= k && 0 <= dot
    requires LastIndexOf(p, '/') == k - 1 && LastIndexOf(p, '.') == k + dot
    requires LastIndexOf(base, '/') == -1 && LastIndexOf(base, '.') == dot
    requires HasNonDot(p, k, k + dot) == HasNonDot(base, 0, dot)
    requires p[k + dot..] == base[dot..]
    ensures Extension(p) == Extension(base)
  {
  }

  lemma SlashOfJoined(dir: string, base: string)
    requires dir == "" || dir[|dir| - 1] == '/'
    requires '/' !in base
    ensures LastIndexOf(dir + base, '/') == |dir| - 1
  {
    LastIndexOfAppend(dir, base, '/');
  }

  lemma DotOfJoined(dir: string, base: string)
    requires '.' in base
    ensures LastIndexOf(dir + base, '.') == |dir| + LastIndexOf(base, '.')
  {
    LastIndexOfAppend(dir, base, '.');
  }

  /** A name that does not start with a dot has as extension everything from its last dot. */
  lemma ExtensionOfName(base: string)
    requires '/' !in base
    requires base != [] && base[0] != '.'
    ensures Extension(base) == if '.' in base then base[LastIndexOf(base, '.')..] else ""
  {
    var dot := LastIndexOf(base, '.');
    if dot >= 0 {
      assert dot != 0;
      assert base[0] != '.' && 0 <= 0 < dot;
    }
  }

  /** A last component made of leading dots and a dot-free rest has no extension: the dots belong to the root. */
  lemma {:induction false} LeadingDotsOnly(dir: string, dots: string, rest: string)
    requires dir == "" || dir[|dir| - 1] == '/'
    requires forall i :: 0 <= i < |dots| ==> dots[i] == '.'
    requires '.' !in rest && '/' !in rest
    ensures Extension(dir + dots + rest) == ""
  {
    var base := dots + rest;
    assert dir + dots + rest == dir + base;
    assert '/' !in base;
    ExtensionOfBase(dir, base);
    if dots != [] {
      LastIndexOfAppend(dots, rest, '.');
      var dot := LastIndexOf(dots, '.');
      assert dot == |dots| - 1;
      assert !HasNonDot(base, 0, dot);
    } else {
      assert base == rest;
    }
  }

  /**
   * Leading dots followed by a name that does not start with a dot: the extension is the name's
   * own, from its last dot (".a.png" has ".png"); the leading dots stay in the root.
   */
  lemma {:induction false} LeadingDotsThenName(dots: string, name: string)
    requires forall i :: 0 <= i < |dots| ==> dots[i] == '.'
    requires '/' !in name && '.' in name
    requires name[0] != '.'
    ensures Extension(dots + name) == name[LastIndexOf(name, '.')..]
  {
    var p := dots + name;
    var ld := LastIndexOf(name, '.');
    LastIndexOfAppend(dots, name, '.');
    LastIndexOfAppend(dots, name, '/');
    assert p[|dots|] == name[0];
    assert HasNonDot(p, 0, |dots| + ld);
    assert p[|dots| + ld..] == name[ld..];
  }

  const ImageExtensions: seq<string> := [".png", ".jpg", ".jpeg", ".gif"]

  /** The exceptions extraction raises, re-raised unchanged to the caller. */
  datatype OcrError =
    | PdfNotSupported           // NotImplementedError
    | UnsupportedType(ext: string)  // ValueError
    | EngineFailure(message: string) // whatever the OCR engine raises
    | IndexOutOfRange           // IndexError from `item[1][0]`

  /** `str(e)` of each error. */
  function Message(e: OcrError): (m: string)
    ensures e.EngineFailure? ==> m == e.message
    ensures e.UnsupportedType? ==> |e.ext| < |m| && m[|m| - |e.ext|..] == e.ext
  {
    match e
    case PdfNotSupported => "PDF处理需要额外配置，请使用图片格式"
    case UnsupportedType(ext) => "不支持的文件类型: " + ext
    case EngineFailure(m) => m
    case IndexOutOfRange => "list index out of range"
  }

  /** The errors extraction raises itself are told apart by their messages. */
  lemma MessageInjective(a: OcrError, b: OcrError)
    requires !a.EngineFailure? && !b.EngineFailure?
    requires Message(a) == Message(b)
    ensures a == b
  {
    var prefix := "不支持的文件类型: ";
    if a.UnsupportedType? && b.UnsupportedType? {
      assert Message(a)[|prefix|..] == a.ext;
      assert Message(b)[|prefix|..] == b.ext;
    } else if a.UnsupportedType? {
      UnsupportedMessageDiffers(a.ext);
    } else if b.UnsupportedType? {
      UnsupportedMessageDiffers(b.ext);
    }
  }

  lemma UnsupportedMessageDiffers(ext: string)
    ensures Message(UnsupportedType(ext)) != Message(PdfNotSupported)
    ensures Message(UnsupportedType(ext)) != Message(IndexOutOfRange)
  {
    assert Message(UnsupportedType(ext))[0] == '不';
  }

  // ---------------------------------------------------------------------------------------------
  // The engine's result and its flattening

  /**
   * One entry of a recognised item, as the sequence of its parts; entry 1 is the (text, confidence)
   * pair, modelled as a list of which only the text is kept.
   */
  datatype Element = Element(parts: seq<string>)
  type Item = seq<Element>
  /** A line of the result: `None`, or the items recognised on it. */
  type Line = Option<seq<Item>>

  /** What `self.ocr.ocr(path)` gives: the nested result, or the exception it raises. */
  datatype EngineOutput = EngineFailed(message: string) | Recognised(lines: seq<Line>)

  type Texts = Result<seq<string>, OcrError>

  /** Collecting `a` then `b`: the first error wins, otherwise the texts in order. */
  function Concat(a: Texts, b: Texts): (r: Texts)
    ensures a.Success? && b.Success? ==> r == Success(a.value + b.value)
    ensures a.Failure? ==> r == a
    ensures a.Success? && b.Failure? ==> r == b
    ensures a == Success([]) ==> r == b
    ensures b == Success([]) ==> r == a
  {
    if a.Failure? then a
    else if b.Failure? then b
    else
      assert a.value + [] == a.value;
      assert [] + b.value == b.value;
      Success(a.value + b.value)
  }

  /** The text an item contributes: none when it has fewer than two entries, else `item[1][0]`. */
  function ItemTexts(item: Item): (r: Texts)
    ensures r.Success? ==> |r.value| <= 1
    ensures r.Failure? ==> r.error == IndexOutOfRange
  {
    if |item| < 2 then Success([])
    else if |item[1].parts| == 0 then Failure(IndexOutOfRange)
    else Success([item[1].parts[0]])
  }

  function LineTexts(items: seq<Item>): (r: Texts)
    ensures r.Success? ==> |r.value| <= |items|
    ensures r.Failure? ==> r.error == IndexOutOfRange
    decreases |items|
  {
    if items == [] then Success([])
    else Concat(LineTexts(items[..|items| - 1]), ItemTexts(items[|items| - 1]))
  }

  /** The text a line contributes: nothing for a `None` line. */
  function OptLineTexts(line: Line): (r: Texts)
    ensures line.None? ==> r == Success([])
    ensures r.Failure? ==> r.error == IndexOutOfRange
  {
    match line
    case None => Success([])
    case Some(items) => LineTexts(items)
  }

  /** The texts collected from all lines, in line-then-item order. */
  function AllTexts(lines: seq<Line>): (r: Texts)
    ensures r.Failure? ==> r.error == IndexOutOfRange
    decreases |lines|
  {
    if lines == [] then Success([])
    else Concat(AllTexts(lines[..|lines| - 1]), OptLineTexts(lines[|lines| - 1]))
  }

  /** The text `_extract_from_image` returns: the collected texts joined by newlines. */
  function ImageText(engine: EngineOutput): (r: Result<string, OcrError>)
    ensures engine.EngineFailed? ==> r == Failure(EngineFailure(engine.message))
    ensures engine.Recognised? && r.Failure? ==> r.error == IndexOutOfRange
    ensures engine.Recognised? && AllTexts(engine.lines) == Success([]) ==> r == Success("")
  {
    match engine
    case EngineFailed(m) => Failure(EngineFailure(m))
    case Recognised(lines) =>
      match AllTexts(lines)
      case Failure(e) => Failure(e)
      case Success(ts) => Success(Join(ts, "\n"))
  }

  lemma ConcatAssoc(a: Texts, b: Texts, c: Texts)
    ensures Concat(Concat(a, b), c) == Concat(a, Concat(b, c))
  {
    if a.Success? && b.Success? && c.Success? {
      assert (a.value + b.value) + c.value == a.value + (b.value + c.value);
    }
  }

  /** Collecting a line split in two is collecting each part, in order. */
  lemma {:induction false} LineTextsAppend(a: seq<Item>, b: seq<Item>)
    ensures LineTexts(a + b) == Concat(LineTexts(a), LineTexts(b))
    decreases |b|
  {
    if b == [] {
      assert a + b == a;
    } else {
      var init := b[..|b| - 1];
      assert (a + b)[..|a + b| - 1] == a + init;
      assert (a + b)[|a + b| - 1] == b[|b| - 1];
      LineTextsAppend(a, init);
      ConcatAssoc(LineTexts(a), LineTexts(init), ItemTexts(b[|b| - 1]));
    }
  }

  /** Collecting a result split in two is collecting each part, in order. */
  lemma {:induction false} AllTextsAppend(a: seq<Line>, b: seq<Line>)
    ensures AllTexts(a + b) == Concat(AllTexts(a), AllTexts(b))
    decreases |b|
  {
    if b == [] {
      assert a + b == a;
    } else {
      var init := b[..|b| - 1];
      assert (a + b)[..|a + b| - 1] == a + init;
      assert (a + b)[|a + b| - 1] == b[|b| - 1];
      AllTextsAppend(a, init);
      ConcatAssoc(AllTexts(a), AllTexts(init), OptLineTexts(b[|b| - 1]));
    }
  }

  /** A `None` line, wherever it stands, contributes nothing. */
  lemma NoneLineContributesNothing(a: seq<Line>, b: seq<Line>)
    ensures AllTexts(a + [None] + b) == AllTexts(a + b)
  {
    AllTextsAppend(a + [None], b);
    AllTextsAppend(a, [None]);
    var one: seq<Line> := [None];
    assert AllTexts(one) == Success([]) by {
      assert one[..0] == [];
    }
    AllTextsAppend(a, b);
  }

  /** An item with fewer than two entries, wherever it stands, contributes nothing. */
  lemma ShortItemSkipped(a: seq<Item>, item: Item, b: seq<Item>)
    requires |item| < 2
    ensures LineTexts(a + [item] + b) == LineTexts(a + b)
  {
    LineTextsAppend(a + [item], b);
    LineTextsAppend(a, [item]);
    assert LineTexts([item]) == Success([]) by {
      assert [item][..0] == [];
    }
    LineTextsAppend(a, b);
  }

  /** An item with at least two entries contributes the text of its second entry. */
  lemma ItemTextTaken(a: seq<Item>, item: Item, b: seq<Item>)
    requires |item| >= 2 && |item[1].parts| > 0
    requires LineTexts(a).Success? && LineTexts(b).Success?
    ensures LineTexts(a + [item] + b) == Success(LineTexts(a).value + [item[1].parts[0]] + LineTexts(b).value)
  {
    LineTextsAppend(a + [item], b);
    LineTextsAppend(a, [item]);
    assert LineTexts([item]) == Success([item[1].parts[0]]) by {
      assert [item][..0] == [];
    }
  }

  /**
   * When n >= 1 texts are collected and none holds a newline, the output has exactly n - 1
   * newlines and splitting it at them gives the texts back; no texts give the empty string.
   */
  lemma ImageTextLayout(lines: seq<Line>)
    requires AllTexts(lines).Success?
    ensures var ts := AllTexts(lines).value;
      ImageText(Recognised(lines)) == Success(Join(ts, "\n"))
      && (ts == [] ==> Join(ts, "\n") == "")
      && (ts != [] && (forall i :: 0 <= i < |ts| ==> '\n' !in ts[i]) ==>
            Count(Join(ts, "\n"), '\n') == |ts| - 1 && Split(Join(ts, "\n"), '\n') == ts)
  {
    var ts := AllTexts(lines).value;
    if ts != [] && (forall i :: 0 <= i < |ts| ==> '\n' !in ts[i]) {
      JoinSeparatorCount(ts, '\n');
      SplitJoin(ts, '\n');
    }
  }

  /** An item whose second entry is empty aborts the whole collection, whatever follows it. */
  lemma FailingItemFails(lines: seq<Line>, i: nat, j: nat)
    requires i < |lines| && lines[i].Some? && j < |lines[i].value|
    requires AllTexts(lines[..i]).Success? && LineTexts(lines[i].value[..j]).Success?
    requires ItemTexts(lines[i].value[j]) == Failure(IndexOutOfRange)
    ensures AllTexts(lines) == Failure(IndexOutOfRange)
  {
    var items := lines[i].value;
    assert items[..j + 1][..j] == items[..j];
    assert LineTexts(items[..j + 1]) == Failure(IndexOutOfRange);
    LineTextsAppend(items[..j + 1], items[j + 1..]);
    assert items[..j + 1] + items[j + 1..] == items;
    assert lines[..i + 1][..i] == lines[..i];
    assert AllTexts(lines[..i + 1]) == Failure(IndexOutOfRange);
    AllTextsAppend(lines[..i + 1], lines[i + 1..]);
    assert lines[..i + 1] + lines[i + 1..] == lines;
  }

  /** The nested loops of `_extract_from_image` over the engine's result. */
  method ExtractFromImage(engine: EngineOutput) returns (r: Result<string, OcrError>)
    ensures r == ImageText(engine)
  {
    if engine.EngineFailed? {
      return Failure(EngineFailure(engine.message));
    }
    var lines := engine.lines;
    var extracted: seq<string> := [];
    var i := 0;
    while i < |lines|
      invariant 0 <= i <= |lines|
      invariant AllTexts(lines[..i]) == Success(extracted)
    {
      assert lines[..i + 1][..i] == lines[..i];
      if lines[i].Some? {
        var items := lines[i].value;
        ghost var before := extracted;
        var j := 0;
        while j < |items|
          invariant 0 <= j <= |items|
          invariant LineTexts(items[..j]).Success?
          invariant extracted == before + LineTexts(items[..j]).value
        {
          var item := items[j];
          assert items[..j + 1][..j] == items[..j];
          if |item| >= 2 {
            if |item[1].parts| == 0 {
              FailingItemFails(lines, i, j);
              return Failure(IndexOutOfRange);
            }
            extracted := extracted + [item[1].parts[0]];
          }
          j := j + 1;
        }
        assert items[..j] == items;
      }
      i := i + 1;
    }
    assert lines[..i] == lines;
    return Success(Join(extracted, "\n"));
  }

  // ---------------------------------------------------------------------------------------------
  // Dispatch on the extension

  /**
   * What `extract_text` gives for a file: the image text for the four image extensions, in any
   * case; `PdfNotSupported` for ".pdf" in any case; `UnsupportedType` for every other extension.
   */
  function ExtractedText(path: string, engine: EngineOutput): (r: Result<string, OcrError>)
    ensures LowerAscii(Extension(path)) in ImageExtensions ==> r == ImageText(engine)
    ensures LowerAscii(Extension(path)) == ".pdf" ==> r == Failure(PdfNotSupported)
    ensures LowerAscii(Extension(path)) !in ImageExtensions + [".pdf"] ==>
      r == Failure(UnsupportedType(LowerAscii(Extension(path))))
    ensures r.Failure? && r.error != PdfNotSupported && !r.error.UnsupportedType? ==>
      LowerAscii(Extension(path)) in ImageExtensions
  {
    var ext := LowerAscii(Extension(path));
    if ext in ImageExtensions then ImageText(engine)
    else if ext == ".pdf" then Failure(PdfNotSupported)
    else Failure(UnsupportedType(ext))
  }

  /** A path whose extension is ".pdf" in any case always fails, whatever the engine would give. */
  lemma PdfAlwaysFails(path: string, engine: EngineOutput)
    requires LowerAscii(Extension(path)) == ".pdf"
    ensures ExtractedText(path, engine) == Failure(PdfNotSupported)
  {
  }

  method ExtractText(path: string, engine: EngineOutput) returns (r: Result<string, OcrError>)
    ensures r == ExtractedText(path, engine)
  {
    var ext := LowerAscii(Extension(path));
    if ext in ImageExtensions {
      r := ExtractFromImage(engine);
    } else if ext == ".pdf" {
      r := Failure(PdfNotSupported);
    } else {
      r := Failure(UnsupportedType(ext));
    }
  }

  // ---------------------------------------------------------------------------------------------
  // Binarisation

  const Threshold: int := 128

  /** `(img > 128) * 255`: every pixel becomes 255 when above the threshold, else 0; the shape is kept. */
  function Binarize(img: seq<seq<int>>): (r: seq<seq<int>>)
    ensures |r| == |img|
    ensures forall i :: 0 <= i < |img| ==> |r[i]| == |img[i]|
    ensures forall i, j :: 0 <= i < |img| && 0 <= j < |img[i]| ==>
      r[i][j] in {0, 255} && (r[i][j] == 255 <==> img[i][j] > Threshold)
  {
    seq(|img|, i requires 0 <= i < |img| =>
      seq(|img[i]|, j requires 0 <= j < |img[i]| => if img[i][j] > Threshold then 255 else 0))
  }

  /** Binarising twice is binarising once. */
  lemma BinarizeIdempotent(img: seq<seq<int>>)
    ensures Binarize(Binarize(img)) == Binarize(img)
  {
    var b := Binarize(img);
    var bb := Binarize(b);
    assert |bb| == |b|;
    forall i | 0 <= i < |b| ensures bb[i] == b[i] {
      assert |bb[i]| == |b[i]|;
      forall j | 0 <= j < |b[i]| ensures bb[i][j] == b[i][j] {
        assert b[i][j] in {0, 255};
      }
    }
  }
}

=== FILE: text.dfy ===
/** String helpers with the meaning of the Python string methods the modelled code calls. */
module Text {

  /** `s.startswith(prefix)`. */
  predicate StartsWith(s: string, prefix: string) {
    |prefix| <= |s| && s[..|prefix|] == prefix
  }

  /** `sub` stands in `s` at index `k`. */
  predicate OccursAt(s: string, sub: string, k: int) {
    0 <= k && k + |sub| <= |s| && s[k..k + |sub|] == sub
  }

  /** `s.rfind(c)`: the index of the last `c` in `s`, or -1 when there is none. */
  function LastIndexOf(s: string, c: char): (r: int)
    ensures -1 <= r < |s|
    ensures r == -1 <==> c !in s
    ensures 0 <= r ==> s[r] == c && c !in s[r + 1..]
  {
    if |s| == 0 then -1
    else if s[|s| - 1] == c then |s| - 1
    else LastIndexOf(s[..|s| - 1], c)
  }

  /** The last `c` of `a + b` is the last one of `b` when `b` has one, else the last one of `a`. */
  lemma {:induction false} LastIndexOfAppend(a: string, b: string, c: char)
    ensures LastIndexOf(a + b, c) == if c in b then |a| + LastIndexOf(b, c) else LastIndexOf(a, c)
    decreases |b|
  {
    if b == [] {
      assert a + b == a;
    } else {
      assert (a + b)[..|a + b| - 1] == a + b[..|b| - 1];
      if b[|b| - 1] != c {
        assert c in b <==> c in b[..|b| - 1] by {
          assert b == b[..|b| - 1] + [b[|b| - 1]];
        }
        LastIndexOfAppend(a, b[..|b| - 1], c);
      }
    }
  }

  /** One character through `str.lower()`, restricted to the ASCII letters. */
  function LowerChar(c: char): char {
    if 'A' <= c <= 'Z' then (c as int + 32) as char else c
  }

  /** `s.lower()` on the ASCII letters; every other character is kept. */
  function LowerAscii(s: string): (r: string)
    ensures |r| == |s|
    ensures forall i :: 0 <= i < |s| ==> r[i] == LowerChar(s[i])
  {
    seq(|s|, i requires 0 <= i < |s| => LowerChar(s[i]))
  }

  /** `sep.join(parts)`. */
  function Join(parts: seq<string>, sep: string): string
  {
    if |parts| == 0 then ""
    else if |parts| == 1 then parts[0]
    else Join(parts[..|parts| - 1], sep) + sep + parts[|parts| - 1]
  }

  /** `s.split(c)` for one separator character: the pieces between the occurrences of `c`. */
  function Split(s: string, c: char): (r: seq<string>)
    ensures |r| >= 1
    decreases |s|
  {
    var k := LastIndexOf(s, c);
    if k < 0 then [s] else Split(s[..k], c) + [s[k + 1..]]
  }

  /** The number of occurrences of `c` in `s`. */
  function Count(s: string, c: char): nat
  {
    if |s| == 0 then 0 else Count(s[..|s| - 1], c) + (if s[|s| - 1] == c then 1 else 0)
  }

  lemma {:induction false} CountAppend(a: string, b: string, c: char)
    ensures Count(a + b, c) == Count(a, c) + Count(b, c)
    decreases |b|
  {
    if |b| == 0 {
      assert a + b == a;
    } else {
      assert (a + b)[..|a + b| - 1] == a + b[..|b| - 1];
      CountAppend(a, b[..|b| - 1], c);
    }
  }

  lemma {:induction false} CountAbsent(s: string, c: char)
    requires c !in s
    ensures Count(s, c) == 0
    decreases |s|
  {
    if |s| > 0 {
      assert c !in s[..|s| - 1];
      CountAbsent(s[..|s| - 1], c);
    }
  }

  /** Joining n pieces that hold no `c` with `c` writes exactly n - 1 separators. */
  lemma {:induction false} JoinSeparatorCount(parts: seq<string>, c: char)
    requires |parts| > 0
    requires forall i :: 0 <= i < |parts| ==> c !in parts[i]
    ensures Count(Join(parts, [c]), c) == |parts| - 1
    decreases |parts|
  {
    if |parts| == 1 {
      CountAbsent(parts[0], c);
    } else {
      var init, last := parts[..|parts| - 1], parts[|parts| - 1];
      JoinSeparatorCount(init, c);
      CountAppend(Join(init, [c]) + [c], last, c);
      CountAppend(Join(init, [c]), [c], c);
      assert [c][..0] == [];
      CountAbsent(last, c);
    }
  }

  /** Splitting a join of at least one separator-free part at the separator gives the parts back. */
  lemma {:induction false} SplitJoin(parts: seq<string>, c: char)
    requires |parts| > 0
    requires forall i :: 0 <= i < |parts| ==> c !in parts[i]
    ensures Split(Join(parts, [c]), c) == parts
    decreases |parts|
  {
    if |parts| == 1 {
      assert LastIndexOf(parts[0], c) == -1;
    } else {
      var init, last := parts[..|parts| - 1], parts[|parts| - 1];
      var j := Join(init, [c]);
      var s := j + [c] + last;
      assert Join(parts, [c]) == s;
      var k := LastIndexOf(s, c);
      assert s[|j|] == c;
      assert s[|j| + 1..] == last;
      assert k == |j|;
      assert s[..k] == j;
      SplitJoin(init, c);
    }
  }
}

=== FILE: wrappers.dfy ===
/** Option and Result: the absent value and the raised exception of the modelled code. */
module Wrappers {

  datatype Option<+T> = None | Some(value: T) {
    /** The value if present, otherwise `default` (Python's `dict.get(key, default)`). */
    function GetOr(default: T): T {
      match this
      case Some(v) => v
      case None => default
    }
  }

  datatype Result<+R, +E> = Success(value: R) | Failure(error: E)
}
